=== FILE: README.md ===
# Soundboard catalog and playback, in Dafny

A model of the logic of `script.js`, the single script of a browser
soundboard for sports events. The script has two parts, and the model
keeps them apart:

- **The catalog** (`catalog.dfy`, `catalog_props.dfy`, `catalog_laws.dfy`,
  with string helpers in `text.dfy`). This covers three functions:
  - `cleanName` turns a file name into a button label.
  - `resetCategories` empties the six categories and the four special slots.
  - `handleFiles` sorts the selected files.

  The sort works as follows. Files that are not audio are dropped. A file
  below a `special_music` folder fills one of the slots `timeout`, `walkon`,
  `pause1` and `pause2`. Every other audio file becomes a button in one of
  six categories, chosen by the tag in its name. Untagged files alternate
  between `sonstiges` and `noch_mehr`.

  The category titles and colours (`Catalog.InitialCategory`) and the
  button icons (`Catalog.Icon`) are copied from the tables at
  `script.js:13-29`.

  The model makes `handleFiles` a pure function `Catalog.HandleFiles` from a
  board and a list of files to a board. It adds a `while`-loop version,
  `Catalog.LoadFiles`, with the same result. Each file is first described
  (`Catalog.Describe`): its class and its display name are computed once,
  where the script computes them inside the loop body.

  `CatalogFacts.ReferenceBoard` is an independent reference model. It says
  what the result is without any loop:
  - each category holds the items of exactly the files classified to it, in
    file order;
  - the misc categories take the untagged files at even and odd positions;
  - each slot holds the last file that matched it.

  `CatalogFacts.RunMatchesReference` proves the loop equal to the reference,
  and `CatalogLaws` derives user-level laws from it.

- **The playback session** (`session.dfy`). A record `Playback.Session`
  holds the state that `playAudio`, `stopAudio` and `setVolume` share:
  - whether Web Audio exists, and whether the device is iOS;
  - the gain of the gain node, once it exists;
  - the element volume, the paused flag and the source;
  - `currentAudio`, as a flag;
  - `volumeLevel`;
  - the pending fade timer.

  Each function is a transition on this record. Each firing of a fade
  interval callback is the transition `Tick`. Gains and volumes are `real`
  numbers, standing in for JavaScript doubles. `Playback.Valid` is the
  invariant every transition keeps.

  After an element fade ends, `el.volume` stays at its last faded value
  until the next `playAudio` or `setVolume` writes `volumeLevel` again
  (`Playback.VolumeTickLowers`, `Playback.Play`,
  `Playback.SetVolumeRestoresElementVolume`).

Upper-casing is modelled for ASCII letters (`Text.Upper`). Tag matching is
case-insensitive, as with `/…/i` and `toUpperCase().includes(…)`.

The object URL the browser hands out for a file (`URL.createObjectURL`)
is the opaque token `Media.Url` (`media.dfy`), shared by both parts.

## Model

| member | source | states |
|---|---|---|
| Text.MatchAtMeans | script.js:40-48 | a case-insensitive match of an upper-case pattern at index i means the pattern fits there, and every character agrees with it after upper-casing |
| Text.FindFindsFirst | script.js:79-82 | the search returns the first index where the pattern matches, case-insensitively, or nothing exactly when it matches nowhere |
| Text.FindIsFirstMatch | script.js:40-48 | when index i matches and no earlier index does, the search reports i, so a replacement acts on the first occurrence |
| Text.HasTagMeansOccurs | script.js:95-98 | `upper.includes(tag)` holds exactly when the tag occurs somewhere in the name, compared case-insensitively |
| Text.RemoveFirst | script.js:40-48 | `replace(/TAG/i, "")` shortens the string by the tag's length or not at all, and returns it unchanged when the tag occurs nowhere |
| Text.RemoveFirstWithoutMatch | script.js:40-48 | `replace(/TAG/i, "")` leaves a string in which the tag does not occur unchanged |
| Text.RemoveFirstCutsFirstOccurrence | script.js:40-48 | `replace(/TAG/i, "")` cuts out exactly the first occurrence: the text before it and the text after it are kept, and the length drops by the tag's length |
| Text.TrimStart | script.js:50 | the result is a suffix of the input, everything cut off is white space, and the result does not start with white space |
| Text.TrimEnd | script.js:50 | the result is a prefix of the input, everything cut off is white space, and the result does not end with white space |
| Text.Trim | script.js:50 | `trim()` leaves no leading or trailing white space, gives the empty string exactly when the input is all white space, and leaves trimmed input unchanged |
| Text.TrimIsSlice | script.js:50 | `trim()` returns one contiguous piece of its input, and only white space is cut off before and after it |
| Text.StripAudioExtension | script.js:49 | the extension regex removes exactly one trailing `.mp3/.flac/.wav/.ogg`, in any letter case, and leaves a name without one unchanged |
| Text.HasAudioExtensionMeans | script.js:71 | a name passes the extension test exactly when some suffix of it is `.mp3`, `.flac`, `.wav` or `.ogg` in any letter case |
| Text.HasAudioExtensionIgnoresCase | script.js:71 | two names that differ only in letter case both pass the extension test or both fail it |
| Text.StartsWithMeans | script.js:70 | `startsWith(p)` holds exactly when `p` is a prefix of the string |
| Catalog.RemoveTags | script.js:39-48 | removing the tags one after the other shortens the name by at most the tags' total length |
| Catalog.RemoveTagsKeepsUntagged | script.js:39-48 | a name containing none of the tags comes through the nine replacements unchanged |
| Catalog.RemoveTagsCutsOneTag | script.js:39-48 | when one tag occurs exactly once, no other tag occurs, and cutting it creates no new tag, the nine replacements cut out exactly that occurrence |
| Catalog.CleanName | script.js:38-51 | the display name has no surrounding white space and is never longer than the file name |
| Catalog.CleanNameKeepsPlainNames | script.js:38-51 | a trimmed name with no tag and no audio extension is its own display name |
| Catalog.CleanNameDropsTheTag | script.js:38-51 | when the name holds a single tag occurrence and cutting it out creates no new tag, the label is the name with that occurrence cut out, its audio extension stripped and the result trimmed |
| Catalog.CleanNameRemovesBoundedText | script.js:38-51 | the label is one contiguous piece of the name after tag and extension removal, with only white space trimmed around it; that text is at most 5 + the nine tags' lengths shorter than the name |
| Catalog.Reset | script.js:53-60 | every category is emptied and keeps its title and colour; every special slot becomes empty |
| Catalog.IsAudioMeans | script.js:69-71 | a file is audio exactly when its media type starts with `audio/` or its name passes the extension test |
| Catalog.RelPath | script.js:68 | the fallback from `webkitRelativePath` to `name` uses the relative path when it is non-empty and the name when it is empty |
| Catalog.InSpecialMeans | script.js:74 | the path test holds exactly when, at some index, `special_music` in any case starts the path or follows a separator, and a separator follows it |
| Catalog.SlotOf | script.js:78-82 | the slot is `timeout` exactly when `_TIMEOUT` occurs, `walkon` when `_WALKON` occurs and `_TIMEOUT` does not, and so on down to `pause2` |
| Catalog.TagOf | script.js:94-98 | the category tag is `ass_angriff` exactly when `_HIT` or `_ACE` occurs, `block` when `_BLOCK` occurs and neither of those does, then `gegner` for `_OPP` and `spass` for `_FUN` |
| Catalog.ClassOf | script.js:68-98 | a file is dropped exactly when it is not audio; it is special exactly when it is audio below a `special_music` folder, with the slot its name selects; otherwise it is tagged exactly when a category tag occurs in its name |
| Catalog.Place | script.js:72-109 | one loop step: a non-audio file, or a special file that matches no slot, changes nothing; only an untagged file advances the counter; only a special file touches the slots; titles and colours never change |
| Catalog.Run | script.js:67-110 | the loop keeps every title and colour, and the counter never goes down |
| Catalog.HandleFiles | script.js:62-110 | `handleFiles` keeps every category's title and colour (its full result is stated by `CatalogLaws.HandleFilesIsReference`) |
| Catalog.LoadFiles | script.js:62-110 | the loop over the file list, with the toggle counter, computes `handleFiles` |
| CatalogFacts.PlaceEffect | script.js:94-109 | one loop step appends the file's item to the category its tag selects, or, if untagged, to the misc category the counter's parity selects; only an untagged file advances the counter |
| CatalogFacts.PlaceEffectSlot | script.js:77-91 | one loop step changes a slot only for a special file matching that slot, which then holds that file's track |
| CatalogFacts.ExpectedAppend | script.js:94-109 | in the reference model, one more entry appends one item to exactly its destination category |
| CatalogFacts.ExpectedTrackAppend | script.js:84-90 | in the reference model, a later matching special file replaces the slot's track |
| CatalogFacts.ReferenceStep | script.js:67-110 | one loop step takes the reference state of a prefix to the reference state of the longer prefix |
| CatalogFacts.RunMatchesReference | script.js:62-110 | the loop, started from the reset board with counter 0, ends in the reference state for every file list |
| CatalogLaws.HandleFilesIsReference | script.js:62-110 | `handleFiles` gives exactly the reference board: categories in file order, misc split by position, slots holding the last match |
| CatalogLaws.CategoryClass | script.js:69-92 | a file goes to a category exactly when it is audio and not below a `special_music` folder |
| CatalogLaws.MiscBalanced | script.js:99-102 | after any load, `sonstiges` holds as many items as `noch_mehr` or one more |
| CatalogLaws.CategoryFilesCount | script.js:69-102 | the audio files outside special folders are exactly as many as the files classified to some category |
| CatalogLaws.CategoryItemsTotal | script.js:104-109 | the six categories hold exactly one item for each audio file outside the special folders |
| CatalogLaws.HandleFilesForgetsPreviousLoad | script.js:53-63 | two boards with the same titles and colours give the same result for the same files, whatever was loaded before |
| CatalogLaws.NonAudioIgnored | script.js:69-72 | a file that is neither `audio/`-typed nor has an audio extension changes nothing, wherever it appears in the list |
| CatalogLaws.PlaceSpecial | script.js:77-91 | a special file never touches the categories; it fills its slot if a tag matches, and otherwise changes nothing |
| CatalogLaws.SpecialFileFillsSlot | script.js:74-91 | a file below a `special_music` folder fills the first matching slot (TIMEOUT, WALKON, PAUSE1, PAUSE2) and replaces any earlier track there; with no match the board is unchanged |
| CatalogLaws.TargetPriority | script.js:94-102 | tag priority is `_HIT`/`_ACE`, then `_BLOCK`, `_OPP`, `_FUN`; an untagged file goes to `sonstiges` on an even count and `noch_mehr` on an odd one |
| CatalogLaws.StepAppendsCategoryFile | script.js:94-109 | one loop step on a non-special audio file appends its item to one category and changes nothing else |
| CatalogLaws.CategoryFileAppended | script.js:94-109 | one more non-special audio file appends its item at the end of exactly one category; the other categories and all slots are unchanged |
| CatalogLaws.HitOrAceWins | script.js:95 | a file tagged `_HIT` or `_ACE` lands in `ass_angriff`, whatever its other tags |
| Playback.Initial | script.js:5-7 | the state before anything plays is valid, with nothing current and no timer |
| Playback.EnsureGraph | script.js:134-151 | with Web Audio, the first call creates the gain node at the stored level and later calls change nothing; without Web Audio nothing changes; the invariant is kept |
| Playback.ApplyLevel | script.js:188-197 | the stored level is written to the gain node if it exists and to the element volume otherwise, and nothing else changes; after it the output is the stored level |
| Playback.Halt | script.js:252-254 | pausing and clearing `currentAudio` with the timer cleared leaves the session idle, changes nothing else and keeps the invariant |
| Playback.Play | script.js:174-204 | `playAudio` cancels any pending fade, makes the audio current with the new source, and starts it unless the browser refuses; the output level is the stored volume level |
| Playback.Stop | script.js:206-256 | with nothing current, `stopAudio` does nothing. A forced stop, or iOS without a gain node, halts at once. Otherwise it schedules a gain fade if the gain node exists, and an element-volume fade if not. The invariant is kept |
| Playback.Tick | script.js:224-250 | a fade callback keeps the invariant and never raises the output while the track plays on, lowering it strictly while a fade is pending; with no timer pending, time passing changes nothing |
| Playback.Clamp | script.js:259 | the parsed volume is clamped to [0,1]: NaN and -Infinity give 0, +Infinity gives 1, and an in-range value is kept exactly when it lies in [0,1] |
| Playback.SetVolume | script.js:258-277 | `setVolume` stores the clamped level and applies it to the live output; the fade, current audio, paused state and source are unchanged |
| Playback.Perform | script.js:174-277 | each of play, stop, a timer firing and a volume change keeps the invariant, and a firing with no timer changes nothing |
| Playback.Replay | script.js:174-277 | any sequence of these actions keeps the invariant, and one that ends with a play leaves that play's URL as the current source with no timer |
| Playback.ReachableIsValid | script.js:1-7 | every session reachable from the initial state satisfies the invariant: levels in [0,1], a fade only on a current track, a gain fade only with a gain node, an element fade only without one and off iOS |
| Playback.TicksWithoutFade | script.js:178-181 | with no timer pending, any number of ticks changes nothing |
| Playback.TicksKeepValid | script.js:224-250 | any number of fade callbacks keep the session invariant |
| Playback.PlayCancelsFade | script.js:178-181 | after `playAudio`, no fade callback ever fires again |
| Playback.PlayTwice | script.js:174-204 | playing twice leaves the second source current, no fade, and the stored volume as output |
| Playback.ImmediateStopIsIdle | script.js:251-255 | a forced stop, or a stop on iOS without a gain node, is idle at once and stays idle |
| Playback.GainTickLowers | script.js:225-235 | a gain-fade tick either subtracts exactly one step, leaving a positive gain and changing nothing else, or ends the fade: idle, with the gain reset to `volumeLevel` |
| Playback.GainAfterTicks | script.js:221-227 | for a gain of m whole steps, k < m ticks take exactly k steps off and keep the fade running |
| Playback.GainFadeEnds | script.js:221-235 | a gain fade whose gain is at most n steps is idle after n ticks, with the gain reset to `volumeLevel` |
| Playback.GainFadeRunsThirtyTicks | script.js:215-227 | with exact arithmetic and a non-zero start gain, a gain fade is still playing after each of its first 29 ticks, at gain (30-k)/30 of the start |
| Playback.GainFadeEndsAtThirtyTicks | script.js:215-235 | with exact arithmetic and a non-zero start gain, a gain fade is idle after its 30th tick, with the gain back at `volumeLevel` |
| Playback.GainFadeWithinThirtyTicks | script.js:215-235 | with exact arithmetic any gain fade, including one from gain 0 whose step falls back to the stored level or to 1, is idle after 30 ticks with the gain back at `volumeLevel` |
| Playback.ZeroGainFadeEndsAtOnce | script.js:215-233 | a gain fade started at gain 0 halts on its first tick, with the gain reset to `volumeLevel` |
| Playback.VolumeFadeEnds | script.js:237-250 | an element-volume fade whose volume is at most n steps is idle after n ticks, and ends no louder than it began |
| Playback.VolumeTickLowers | script.js:239-248 | an element-fade tick either subtracts exactly one step from the volume, leaving it positive and changing nothing else, or halts and leaves the volume where it was |
| Playback.VolumeFadeWithinThirtyTicks | script.js:237-250 | with exact arithmetic an element-volume fade is idle within 30 ticks |
| Playback.SetVolumeIdempotent | script.js:258-277 | setting the same volume twice is the same as setting it once |
| Playback.SetVolumeThenPlay | script.js:188-197 | after `setVolume(v)`, playing outputs the clamped v |
| Playback.SetVolumeRestoresElementVolume | script.js:272-276 | without a gain node, `setVolume` writes the clamped level to `el.volume`, so after an element fade it restores the output to the stored level |
| Playback.SetVolumeMidFadeRaisesGain | script.js:267-269 | during a gain fade, `setVolume` writes the new level straight to the gain while the timer keeps running, so the gain can rise above its value before the fade began |

## Left out

- `renderCategories`, `updateSpecialButtons`, the `DOMContentLoaded` wiring and `alert`: these only render the board and wire up events.
- `docs/service-worker.js`: only caching and request plumbing.
- `URL.createObjectURL` is an opaque `Url` token carried by each file. The leaked object URLs are not modelled.
- `getAudioElement` always yields an element in a browser, so its `if (!el) return` branches are not modelled.
- `ensureAudioGraph` is reduced to its visible effect: with Web Audio present, the first call creates the gain node at `volumeLevel`. `AudioContext.resume()` is not modelled.
- `el.play()` is an `allowed` flag: a refused play leaves the element paused, and the refusal is only logged.
- `el.currentTime = 0` is not modelled; the model has no playback position.
- `IS_IOS` user-agent sniffing is a boolean field of the session.
- The 33 ms timer cadence and wall-clock time are left out. Only the callback firings are modelled, as `Tick`.
- Exact IEEE-754 arithmetic is replaced by exact real arithmetic. With floats, rounding in `startGain / 30` and the repeated subtractions can move the end of a fade by one tick.
- Playback.GainFadeEndsAtThirtyTicks: states the 30-tick bound for exact arithmetic only, because floating-point rounding is not modelled.
- Playback.GainFadeWithinThirtyTicks: states the 30-tick bound for exact arithmetic only, for the same reason.
- Playback.VolumeFadeWithinThirtyTicks: states the 30-tick bound for exact arithmetic only, for the same reason.
- `toUpperCase` is modelled for ASCII only. For the `/…/i` regexes this is exact. For `name.toUpperCase().includes(…)`, non-ASCII letters whose upper case contains ASCII letters (such as `ı` or `ﬀ`) are not modelled.
- On iOS the element volume is read-only, and the browser ignores writes to it. The model treats every write to `el.volume` as effective.
- `parseFloat` is taken as given: its result is the `Parsed` input of `Playback.SetVolume`, so the parsing of the text is not modelled.

=== FILE: catalog.dfy ===
/** The catalog builder of the soundboard (`script.js`: `cleanName`,
    `resetCategories` and the classification loop of `handleFiles`).
    A loaded file is dropped unless it is audio; a file below a
    `special_music` folder goes to one of four special slots; every other
    audio file goes to one of six categories by the tag in its name, and
    untagged files alternate between the two "misc" categories. */
module Catalog {
  import opened Wrappers
  import opened Text
  import opened Media

  /** A selected file: `name`, declared media `type` (possibly empty),
      `webkitRelativePath` (empty when the file was not picked as part of a
      folder) and the object URL created for it. */
  datatype File = File(name: string, mimeType: string, relativePath: string, url: Url)

  /** A category button. */
  datatype Item = Item(name: string, display: string, icon: string, url: Url)

  /** A special-slot track. */
  datatype Track = Track(name: string, display: string, url: Url)

  datatype CategoryKey = AssAngriff | Block | Gegner | Sonstiges | NochMehr | Spass

  datatype Category = Category(title: string, color: string, items: seq<Item>)

  /** The six categories, keyed as in `script.js`. */
  type Categories = m: map<CategoryKey, Category> | forall k :: k in m
    witness map k: CategoryKey | true :: Category("", "", [])

  datatype SlotKey = Timeout | Walkon | Pause1 | Pause2

  /** The special slots; None stands for the script's `null`. */
  type Specials = m: map<SlotKey, Option<Track>> | forall k :: k in m
    witness map k: SlotKey | true :: None

  /** Everything `handleFiles` writes: the categories and the special slots. */
  datatype Board = Board(categories: Categories, specials: Specials)

  const EmptySpecials: Specials := map k: SlotKey | true :: None

  /** Each category's title and colour as the script declares them, with no items. */
  function InitialCategory(k: CategoryKey): Category {
    match k
    case AssAngriff => Category("Ass/Angriff", "bg-blue-600", [])
    case Block => Category("Block", "bg-pink-600", [])
    case Gegner => Category("Gegner", "bg-red-600", [])
    case Sonstiges => Category("_", "bg-green-600", [])
    case NochMehr => Category("_", "bg-green-600", [])
    case Spass => Category("Lustig", "bg-purple-600", [])
  }

  /** The board before any file is loaded. */
  const InitialBoard := Board(map k: CategoryKey | true :: InitialCategory(k), EmptySpecials)

  /** The button icon of each category. */
  function Icon(k: CategoryKey): string {
    match k
    case AssAngriff => "\U{1F525}"
    case Block => "\U{1F9F1}"
    case Gegner => "\U{2694}\U{FE0F}"
    case Spass => "\U{1F389}"
    case Sonstiges => "\U{1F3B5}"
    case NochMehr => "\U{1F3B5}"
  }

  // ---------------------------------------------------------------- cleanName

  /** The tags `cleanName` removes, in the order it removes them. */
  const CleanTags: seq<string> :=
    ["_BLOCK", "_HIT", "_ACE", "_OPP", "_FUN", "_TIMEOUT", "_WALKON", "_PAUSE1", "_PAUSE2"]

  function TotalLength(ts: seq<string>): nat {
    if ts == [] then 0 else |ts[0]| + TotalLength(ts[1..])
  }

  /** Removes the first occurrence of each tag of `ts`, one tag after the other. */
  function RemoveTags(s: string, ts: seq<string>): (r: string)
    ensures |s| - TotalLength(ts) <= |r| <= |s|
    decreases ts
  {
    if ts == [] then s else RemoveTags(RemoveFirst(s, ts[0]), ts[1..])
  }

  /** A name in which no tag occurs is left as it is. */
  lemma {:induction false} RemoveTagsKeepsUntagged(s: string, ts: seq<string>)
    requires forall t, j: nat :: t in ts ==> !MatchAt(s, j, t)
    ensures RemoveTags(s, ts) == s
    decreases ts
  {
    if ts != [] {
      RemoveFirstWithoutMatch(s, ts[0]);
      RemoveTagsKeepsUntagged(s, ts[1..]);
    }
  }

  /** When the only tag occurrence in `s` is `t` at index `i`, and cutting it
      out leaves no tag behind, the replacements remove exactly that
      occurrence: the other replacements find nothing and change nothing. */
  lemma {:induction false} RemoveTagsCutsOneTag(s: string, ts: seq<string>, t: string, i: nat)
    requires t in ts
    requires i + |t| <= |s| && MatchAt(s, i, t)
    requires forall u, j: nat :: u in ts && MatchAt(s, j, u) ==> u == t && j == i
    requires forall u, j: nat :: u in ts ==> !MatchAt(CutOut(s, i, |t|), j, u)
    ensures RemoveTags(s, ts) == CutOut(s, i, |t|)
    decreases ts
  {
    if ts[0] == t {
      RemoveFirstCutsFirstOccurrence(s, t, i);
      var c := RemoveFirst(s, t);
      assert c == c[..i] + c[i..];
      assert c == CutOut(s, i, |t|);
      RemoveTagsKeepsUntagged(c, ts[1..]);
    } else {
      RemoveFirstWithoutMatch(s, ts[0]);
      assert t in ts[1..];
      RemoveTagsCutsOneTag(s, ts[1..], t, i);
    }
  }

  /** The display name of a file: its name without the tags, without one
      trailing audio extension, and with surrounding white space trimmed. */
  function CleanName(name: string): (r: string)
    ensures Trimmed(r)
    ensures |r| <= |name|
  {
    Trim(StripAudioExtension(RemoveTags(name, CleanTags)))
  }

  /** A name without tags, extension or surrounding white space is its own
      display name. */
  lemma CleanNameKeepsPlainNames(name: string)
    requires forall t, j: nat :: t in CleanTags ==> !MatchAt(name, j, t)
    requires !HasAudioExtension(name)
    requires Trimmed(name)
    ensures CleanName(name) == name
  {
    RemoveTagsKeepsUntagged(name, CleanTags);
  }

  /** A name with one tag in it, in any letter case, is displayed without
      that tag: what remains is stripped of its audio extension and trimmed. */
  lemma CleanNameDropsTheTag(name: string, t: string, i: nat)
    requires t in CleanTags
    requires i + |t| <= |name| && MatchAt(name, i, t)
    requires forall u, j: nat :: u in CleanTags && MatchAt(name, j, u) ==> u == t && j == i
    requires forall u, j: nat :: u in CleanTags ==> !MatchAt(CutOut(name, i, |t|), j, u)
    ensures CleanName(name) == Trim(StripAudioExtension(CutOut(name, i, |t|)))
  {
    RemoveTagsCutsOneTag(name, CleanTags, t, i);
  }

  /** At most one occurrence of each tag and one extension are removed:
      before trimming, the label `u` is never shorter than the name minus
      the lengths of all nine tags and of the longest extension; the display
      name is `u[i..j]`, with only white space cut off on either side. */
  lemma CleanNameRemovesBoundedText(name: string) returns (i: nat, j: nat)
    ensures var u := StripAudioExtension(RemoveTags(name, CleanTags));
            && |name| - TotalLength(CleanTags) - 5 <= |u| <= |name|
            && i <= j <= |u| && CleanName(name) == u[i..j]
            && AllSpace(u[..i]) && AllSpace(u[j..])
  {
    var r := RemoveTags(name, CleanTags);
    var u := StripAudioExtension(r);
    assert |r| - 5 <= |u| <= |r|;
    i, j := TrimIsSlice(u);
  }

  // ---------------------------------------------------------- classification

  /** `file.type && file.type.startsWith("audio/")`, or an audio extension. */
  predicate IsAudio(f: File) {
    (|f.mimeType| > 0 && StartsWith(f.mimeType, "audio/")) || HasAudioExtension(f.name)
  }

  /** A file is audio exactly when its media type begins with `audio/` or
      its name ends in an audio extension. */
  lemma IsAudioMeans(f: File)
    ensures IsAudio(f) <==> (|f.mimeType| >= 6 && f.mimeType[..6] == "audio/") || HasAudioExtension(f.name)
  {
    StartsWithMeans(f.mimeType, "audio/");
  }

  /** `file.webkitRelativePath || file.name`: the empty string counts as
      missing, so the name stands in for an empty relative path. */
  function RelPath(f: File): (r: string)
    ensures |f.relativePath| > 0 ==> r == f.relativePath
    ensures |f.relativePath| == 0 ==> r == f.name
  {
    if |f.relativePath| > 0 then f.relativePath else f.name
  }

  predicate IsSeparator(c: char) {
    c == '/' || c == '\\'
  }

  /** `/(^|[\\/])special_music[\\/]/i.test(p)`: a path segment named
      `special_music` (any case) followed by a separator. */
  predicate InSpecial(p: string) {
    SegmentFrom(p, "SPECIAL_MUSIC", 0)
  }

  /** Some index at or after `i` starts a segment named `w` (compared in
      upper case) that a separator closes. */
  predicate SegmentFrom(p: string, w: string, i: nat)
    decreases |p| - i
  {
    i < |p| && (SegmentAt(p, w, i) || SegmentFrom(p, w, i + 1))
  }

  predicate SegmentAt(p: string, w: string, i: nat) {
    && i + |w| < |p|
    && (i == 0 || IsSeparator(p[i - 1]))
    && MatchAt(p, i, w)
    && IsSeparator(p[i + |w|])
  }

  lemma {:induction false} SegmentFromMeans(p: string, w: string, from: nat)
    ensures SegmentFrom(p, w, from) ==> exists i: nat :: from <= i && SegmentAt(p, w, i)
    ensures (exists i: nat :: from <= i && SegmentAt(p, w, i)) ==> SegmentFrom(p, w, from)
    decreases |p| - from
  {
    if from < |p| {
      SegmentFromMeans(p, w, from + 1);
      if !SegmentAt(p, w, from) {
        forall i: nat | from <= i && SegmentAt(p, w, i) ensures from + 1 <= i {
        }
      }
    }
  }

  /** The regex finds a segment exactly when one starts somewhere in the
      path: `special_music` in any case, at the start or after a separator,
      and followed by a separator. */
  lemma InSpecialMeans(p: string)
    ensures InSpecial(p) ==> exists i: nat :: SegmentAt(p, "SPECIAL_MUSIC", i)
    ensures (exists i: nat :: SegmentAt(p, "SPECIAL_MUSIC", i)) ==> InSpecial(p)
  {
    SegmentFromMeans(p, "SPECIAL_MUSIC", 0);
  }

  /** The slot a special file fills, by its name's tags in priority order. */
  function SlotOf(name: string): (r: Option<SlotKey>)
    ensures r == Some(Timeout) <==> HasTag(name, "_TIMEOUT")
    ensures r == Some(Walkon) <==> !HasTag(name, "_TIMEOUT") && HasTag(name, "_WALKON")
    ensures r == Some(Pause1) <==> !HasTag(name, "_TIMEOUT") && !HasTag(name, "_WALKON") && HasTag(name, "_PAUSE1")
    ensures r == Some(Pause2) <==>
      !HasTag(name, "_TIMEOUT") && !HasTag(name, "_WALKON") && !HasTag(name, "_PAUSE1") && HasTag(name, "_PAUSE2")
  {
    if HasTag(name, "_TIMEOUT") then Some(Timeout)
    else if HasTag(name, "_WALKON") then Some(Walkon)
    else if HasTag(name, "_PAUSE1") then Some(Pause1)
    else if HasTag(name, "_PAUSE2") then Some(Pause2)
    else None
  }

  /** The category a tagged file goes to, by its name's tags in priority order. */
  function TagOf(name: string): (r: Option<TagKey>)
    ensures r == Some(AssAngriff) <==> HasTag(name, "_HIT") || HasTag(name, "_ACE")
    ensures r == Some(Block) <==> !HasTag(name, "_HIT") && !HasTag(name, "_ACE") && HasTag(name, "_BLOCK")
    ensures r == Some(Gegner) <==>
      !HasTag(name, "_HIT") && !HasTag(name, "_ACE") && !HasTag(name, "_BLOCK") && HasTag(name, "_OPP")
    ensures r == Some(Spass) <==>
      !HasTag(name, "_HIT") && !HasTag(name, "_ACE") && !HasTag(name, "_BLOCK") && !HasTag(name, "_OPP")
      && HasTag(name, "_FUN")
  {
    if HasTag(name, "_HIT") || HasTag(name, "_ACE") then Some(AssAngriff)
    else if HasTag(name, "_BLOCK") then Some(Block)
    else if HasTag(name, "_OPP") then Some(Gegner)
    else if HasTag(name, "_FUN") then Some(Spass)
    else None
  }

  /** How one loaded file is treated. */
  datatype FileClass = NotAudio | Special(slot: Option<SlotKey>) | Tagged(key: TagKey) | Untagged

  /** The categories a tag can select; the two misc categories take only untagged files. */
  type TagKey = k: CategoryKey | k != Sonstiges && k != NochMehr witness AssAngriff

  /** The class of a file: non-audio files are dropped, audio files below a
      `special_music` folder are special with the slot their tags select,
      and every other audio file is tagged or untagged by its name. */
  function ClassOf(f: File): (r: FileClass)
    ensures r == NotAudio <==> !IsAudio(f)
    ensures r.Special? <==> IsAudio(f) && InSpecial(RelPath(f))
    ensures r.Special? ==> r.slot == SlotOf(f.name)
    ensures r.Tagged? <==> IsAudio(f) && !InSpecial(RelPath(f)) && TagOf(f.name).Some?
    ensures r.Tagged? ==> TagOf(f.name) == Some(r.key)
    ensures r == Untagged <==> IsAudio(f) && !InSpecial(RelPath(f)) && TagOf(f.name) == None
  {
    if !IsAudio(f) then NotAudio
    else if InSpecial(RelPath(f)) then Special(SlotOf(f.name))
    else match TagOf(f.name)
      case Some(k) => Tagged(k)
      case None => Untagged
  }

  /** A loaded file with what the loop body of `handleFiles` works out
      about it: its class and its display name. */
  datatype Entry = Entry(file: File, kind: FileClass, display: string)

  function Describe(f: File): Entry {
    Entry(f, ClassOf(f), CleanName(f.name))
  }

  /** The button `handleFiles` pushes into category `k`. */
  function MakeItem(k: CategoryKey, e: Entry): Item {
    Item(e.file.name, e.display, Icon(k), e.file.url)
  }

  /** The track `handleFiles` stores in a special slot. */
  function MakeTrack(e: Entry): Track {
    Track(e.file.name, e.display, e.file.url)
  }

  // -------------------------------------------------------- resetCategories

  /** `resetCategories`: empties every category and every special slot. */
  function Reset(b: Board): (r: Board)
    ensures forall k :: r.categories[k].items == []
    ensures forall k :: r.categories[k].title == b.categories[k].title
    ensures forall k :: r.categories[k].color == b.categories[k].color
    ensures forall k :: r.specials[k] == None
  {
    Board(map k: CategoryKey | true :: b.categories[k].(items := []), EmptySpecials)
  }

  // ------------------------------------------------------------ handleFiles

  /** The state of the classification loop: the board and the counter that
      alternates untagged files between the two misc categories. */
  datatype Loader = Loader(board: Board, toggle: nat)

  function Append(b: Board, k: CategoryKey, e: Entry): Board {
    var c := b.categories[k];
    b.(categories := b.categories[k := c.(items := c.items + [MakeItem(k, e)])])
  }

  /** `f` applied to every element of `s`, in order. */
  function MapSeq<A, B>(f: A -> B, s: seq<A>): (r: seq<B>)
    ensures |r| == |s|
    ensures forall i :: 0 <= i < |s| ==> r[i] == f(s[i])
  {
    seq(|s|, i requires 0 <= i < |s| => f(s[i]))
  }

  lemma MapSeqConcat<A, B>(f: A -> B, a: seq<A>, b: seq<A>)
    ensures MapSeq(f, a + b) == MapSeq(f, a) + MapSeq(f, b)
  {
  }

  /** Every file of `fs` described, in order. */
  function Classify(fs: seq<File>): seq<Entry> {
    MapSeq(Describe, fs)
  }

  lemma ClassifyConcat(a: seq<File>, b: seq<File>)
    ensures Classify(a + b) == Classify(a) + Classify(b)
  {
    MapSeqConcat(Describe, a, b);
  }

  /** Two boards with the same category titles and colours. */
  predicate SameFrame(b1: Board, b2: Board) {
    forall k :: b1.categories[k].(items := []) == b2.categories[k].(items := [])
  }

  /** The loop body of `handleFiles` for a described file: a non-audio file
      and a special file matching no slot change nothing; only an untagged
      file advances the counter; only a special file touches the slots; no
      file changes a category's title or colour. */
  function Place(st: Loader, e: Entry): (r: Loader)
    ensures e.kind == NotAudio || e.kind == Special(None) ==> r == st
    ensures r.toggle == st.toggle + (if e.kind == Untagged then 1 else 0)
    ensures !e.kind.Special? ==> r.board.specials == st.board.specials
    ensures SameFrame(r.board, st.board)
  {
    match e.kind
    case NotAudio => st
    case Special(None) => st
    case Special(Some(k)) =>
      st.(board := st.board.(specials := st.board.specials[k := Some(MakeTrack(e))]))
    case Tagged(k) => st.(board := Append(st.board, k, e))
    case Untagged =>
      var k := if st.toggle % 2 == 0 then Sonstiges else NochMehr;
      Loader(Append(st.board, k, e), st.toggle + 1)
  }

  /** One iteration of the loop body of `handleFiles`: describe, then place. */
  function Step(st: Loader, f: File): Loader {
    Place(st, Describe(f))
  }

  /** The loop over the classified files, in order. */
  function Run(st: Loader, es: seq<Entry>): (r: Loader)
    ensures SameFrame(r.board, st.board)
    ensures r.toggle >= st.toggle
  {
    if es == [] then st else Place(Run(st, es[..|es| - 1]), es[|es| - 1])
  }

  /** `handleFiles`: reset, then classify and place every file in order.
      Titles and colours are never touched. */
  function HandleFiles(b: Board, fs: seq<File>): (r: Board)
    ensures SameFrame(r, b)
  {
    Run(Loader(Reset(b), 0), Classify(fs)).board
  }

  /** The same loop written as a `while` statement over the file list. */
  method LoadFiles(b: Board, fs: seq<File>) returns (r: Board)
    ensures r == HandleFiles(b, fs)
  {
    var st := Loader(Reset(b), 0);
    var i := 0;
    while i < |fs|
      invariant 0 <= i <= |fs|
      invariant st == Run(Loader(Reset(b), 0), Classify(fs[..i]))
    {
      ClassifyPrefix(fs, i);
      RunAppend(Loader(Reset(b), 0), Classify(fs[..i]), Describe(fs[i]));
      st := Step(st, fs[i]);
      i := i + 1;
    }
    assert fs[..|fs|] == fs;
    r := st.board;
  }

  lemma ClassifyPrefix(fs: seq<File>, i: nat)
    requires i < |fs|
    ensures Classify(fs[..i + 1]) == Classify(fs[..i]) + [Describe(fs[i])]
  {
    MapSeqPrefix(Describe, fs, i);
  }

  lemma MapSeqLast<A, B>(f: A -> B, s: seq<A>, x: A)
    ensures MapSeq(f, s + [x]) == MapSeq(f, s) + [f(x)]
  {
    MapSeqConcat(f, s, [x]);
  }

  lemma MapSeqPrefix<A, B>(f: A -> B, s: seq<A>, i: nat)
    requires i < |s|
    ensures MapSeq(f, s[..i + 1]) == MapSeq(f, s[..i]) + [f(s[i])]
  {
    assert s[..i + 1] == s[..i] + [s[i]];
    MapSeqConcat(f, s[..i], [s[i]]);
  }

  lemma RunAppend(st: Loader, es: seq<Entry>, e: Entry)
    ensures Run(st, es + [e]) == Place(Run(st, es), e)
  {
    assert (es + [e])[..|es|] == es;
  }
}

=== FILE: catalog_laws.dfy ===
/** The properties of `handleFiles` a user of the soundboard relies on,
    derived from the reference model of `CatalogFacts`. */
module CatalogLaws {
  import opened Wrappers
  import opened Text
  import opened Catalog
  import opened CatalogFacts

  // ------------------------------------------------- files and their entries

  /** What the loop learns about a file: the file itself and its class. */
  lemma DescribeFile(f: File)
    ensures Describe(f).file == f
    ensures Describe(f).kind == ClassOf(f)
  {
  }

  /** A file ends up in a category exactly when it is audio and outside
      every `special_music` folder. */
  lemma CategoryClass(f: File)
    ensures ClassOf(f).Tagged? || ClassOf(f).Untagged? ==> IsAudio(f) && !InSpecial(RelPath(f))
    ensures IsAudio(f) && !InSpecial(RelPath(f)) ==> ClassOf(f).Tagged? || ClassOf(f).Untagged?
  {
  }

  lemma ClassifyLast(fs: seq<File>, f: File)
    ensures Classify(fs + [f]) == Classify(fs) + [Describe(f)]
  {
    MapSeqLast(Describe, fs, f);
  }

  /** The files `handleFiles` turns into category buttons, in order: the
      audio files outside every `special_music` folder. */
  function CategoryFiles(fs: seq<File>): seq<File> {
    if fs == [] then []
    else
      var f := fs[|fs| - 1];
      CategoryFiles(fs[..|fs| - 1]) + (if IsAudio(f) && !InSpecial(RelPath(f)) then [f] else [])
  }

  // ------------------------------------------------------ the reference board

  /** `handleFiles` computes exactly the reference board of its classified
      files: each category keeps its title and colour and holds the items of
      the files classified to it, in file order; the untagged files are
      split by position between the two misc categories; each special slot
      holds the last file that matched it. */
  lemma HandleFilesIsReference(b: Board, fs: seq<File>)
    ensures HandleFiles(b, fs) == ReferenceBoard(b, Classify(fs))
  {
    RunMatchesReference(b, Classify(fs));
  }

  lemma ReferenceMiscBalanced(b: Board, es: seq<Entry>)
    ensures (var c := ReferenceBoard(b, es).categories;
            0 <= |c[Sonstiges].items| - |c[NochMehr].items| <= 1)
  {
  }

  /** The misc categories never differ by more than one item, and
      `sonstiges` is filled first. */
  lemma MiscBalanced(b: Board, fs: seq<File>)
    ensures (var c := HandleFiles(b, fs).categories;
            0 <= |c[Sonstiges].items| - |c[NochMehr].items| <= 1)
  {
    HandleFilesIsReference(b, fs);
    ReferenceMiscBalanced(b, Classify(fs));
  }

  /** The number of entries that go to some category. */
  function CategoryCount(es: seq<Entry>): nat {
    |Having(es, Tagged(AssAngriff))| + |Having(es, Tagged(Block))| + |Having(es, Tagged(Gegner))| +
    |Having(es, Tagged(Spass))| + |Having(es, Untagged)|
  }

  lemma CategoryCountLast(es: seq<Entry>, e: Entry)
    ensures CategoryCount(es + [e]) == CategoryCount(es) + (if e.kind.Tagged? || e.kind.Untagged? then 1 else 0)
  {
    HavingLastLength(es, e, Tagged(AssAngriff));
    HavingLastLength(es, e, Tagged(Block));
    HavingLastLength(es, e, Tagged(Gegner));
    HavingLastLength(es, e, Tagged(Spass));
    HavingLastLength(es, e, Untagged);
  }

  lemma HavingLastLength(es: seq<Entry>, e: Entry, c: FileClass)
    ensures |Having(es + [e], c)| == |Having(es, c)| + (if e.kind == c then 1 else 0)
  {
    HavingLast(es, e, c);
  }

  lemma {:induction false} CategoryFilesCount(fs: seq<File>)
    ensures |CategoryFiles(fs)| == CategoryCount(Classify(fs))
  {
    if fs == [] {
      assert Classify(fs) == [];
    } else {
      var p := fs[..|fs| - 1];
      var f := fs[|fs| - 1];
      assert fs == p + [f];
      CategoryFilesCount(p);
      ClassifyLast(p, f);
      CategoryCountLast(Classify(p), Describe(f));
      DescribeFile(f);
      CategoryClass(f);
    }
  }

  lemma ReferenceItemsTotal(b: Board, es: seq<Entry>)
    ensures (var c := ReferenceBoard(b, es).categories;
            |c[AssAngriff].items| + |c[Block].items| + |c[Gegner].items| +
            |c[Sonstiges].items| + |c[NochMehr].items| + |c[Spass].items| == CategoryCount(es))
  {
  }

  /** Every audio file outside the special folders yields exactly one
      category button. */
  lemma CategoryItemsTotal(b: Board, fs: seq<File>)
    ensures (var c := HandleFiles(b, fs).categories;
            |c[AssAngriff].items| + |c[Block].items| + |c[Gegner].items| +
            |c[Sonstiges].items| + |c[NochMehr].items| + |c[Spass].items| == |CategoryFiles(fs)|)
  {
    HandleFilesIsReference(b, fs);
    ReferenceItemsTotal(b, Classify(fs));
    CategoryFilesCount(fs);
  }

  // ---------------------------------------------------- independence laws

  lemma ReferenceForgetsPreviousLoad(b1: Board, b2: Board, es: seq<Entry>)
    requires SameFrame(b1, b2)
    ensures ReferenceBoard(b1, es) == ReferenceBoard(b2, es)
  {
    var r1 := ReferenceBoard(b1, es);
    var r2 := ReferenceBoard(b2, es);
    forall k ensures r1.categories[k] == r2.categories[k] {
      assert b1.categories[k].(items := []) == b2.categories[k].(items := []);
    }
    assert r1.categories == r2.categories;
  }

  /** The result of `handleFiles` depends only on the new files and on the
      categories' titles and colours, never on what was loaded before. */
  lemma HandleFilesForgetsPreviousLoad(b1: Board, b2: Board, fs: seq<File>)
    requires SameFrame(b1, b2)
    ensures HandleFiles(b1, fs) == HandleFiles(b2, fs)
  {
    HandleFilesIsReference(b1, fs);
    HandleFilesIsReference(b2, fs);
    ReferenceForgetsPreviousLoad(b1, b2, Classify(fs));
  }

  lemma ExpectedDeterminedByClasses(es: seq<Entry>, ds: seq<Entry>, k: CategoryKey)
    requires forall c :: c != NotAudio ==> Having(es, c) == Having(ds, c)
    ensures Expected(es, k) == Expected(ds, k)
  {
    assert Having(es, Untagged) == Having(ds, Untagged);
    if k != Sonstiges && k != NochMehr {
      assert Having(es, Tagged(k)) == Having(ds, Tagged(k));
    }
  }

  lemma ExpectedTrackDeterminedByClasses(es: seq<Entry>, ds: seq<Entry>, k: SlotKey)
    requires forall c :: c != NotAudio ==> Having(es, c) == Having(ds, c)
    ensures ExpectedTrack(es, k) == ExpectedTrack(ds, k)
  {
    assert Having(es, Special(Some(k))) == Having(ds, Special(Some(k)));
  }

  /** Two boards agreeing on every category and every slot are equal. */
  /** The reference board depends only on the sequence of entries of each
      class, not on the non-audio entries in between. */
  lemma ReferenceDeterminedByClasses(b: Board, es: seq<Entry>, ds: seq<Entry>)
    requires forall c :: c != NotAudio ==> Having(es, c) == Having(ds, c)
    ensures ReferenceBoard(b, es) == ReferenceBoard(b, ds)
  {
    var r1 := ReferenceBoard(b, es);
    var r2 := ReferenceBoard(b, ds);
    forall k ensures r1.categories[k] == r2.categories[k] {
      ExpectedDeterminedByClasses(es, ds, k);
    }
    forall k ensures r1.specials[k] == r2.specials[k] {
      ExpectedTrackDeterminedByClasses(es, ds, k);
    }
    BoardExt(r1, r2);
  }

  lemma DroppingNonAudioKeepsClasses(p: seq<Entry>, e: Entry, q: seq<Entry>, c: FileClass)
    requires e.kind == NotAudio && c != NotAudio
    ensures Having(p + [e] + q, c) == Having(p + q, c)
  {
    HavingConcat(p + [e], q, c);
    HavingLast(p, e, c);
    HavingConcat(p, q, c);
  }

  /** A file that is neither of an `audio/` media type nor named with an audio
      extension changes nothing, wherever it appears in the list. */
  lemma NonAudioIgnored(b: Board, p: seq<File>, f: File, q: seq<File>)
    requires !IsAudio(f)
    ensures HandleFiles(b, p + [f] + q) == HandleFiles(b, p + q)
  {
    var e := Describe(f);
    DescribeFile(f);
    ClassifyLast(p, f);
    ClassifyConcat(p + [f], q);
    ClassifyConcat(p, q);
    var es := Classify(p) + [e] + Classify(q);
    var ds := Classify(p) + Classify(q);
    forall c | c != NotAudio ensures Having(es, c) == Having(ds, c) {
      DroppingNonAudioKeepsClasses(Classify(p), e, Classify(q), c);
    }
    ReferenceDeterminedByClasses(b, es, ds);
    HandleFilesIsReference(b, p + [f] + q);
    HandleFilesIsReference(b, p + q);
  }

  // ------------------------------------------------- one more file at the end

  lemma HandleFilesAppendStep(b: Board, fs: seq<File>, f: File)
    ensures Run(Loader(Reset(b), 0), Classify(fs + [f])) == Step(Run(Loader(Reset(b), 0), Classify(fs)), f)
    ensures Run(Loader(Reset(b), 0), Classify(fs)).toggle == |Having(Classify(fs), Untagged)|
  {
    ClassifyLast(fs, f);
    RunAppend(Loader(Reset(b), 0), Classify(fs), Describe(f));
    RunMatchesReference(b, Classify(fs));
  }

  /** A file below a `special_music` folder never enters a category; it
      fills the slot of its first matching tag in the order TIMEOUT, WALKON,
      PAUSE1, PAUSE2, replacing any earlier track there, and is dropped when
      no tag matches. */
  lemma SpecialFileFillsSlot(b: Board, fs: seq<File>, f: File)
    requires IsAudio(f) && InSpecial(RelPath(f))
    ensures (var before := HandleFiles(b, fs);
            var after := HandleFiles(b, fs + [f]);
            var t := Some(MakeTrack(Describe(f)));
            && after.categories == before.categories
            && (HasTag(f.name, "_TIMEOUT") ==> after.specials == before.specials[Timeout := t])
            && (!HasTag(f.name, "_TIMEOUT") && HasTag(f.name, "_WALKON") ==>
                  after.specials == before.specials[Walkon := t])
            && (!HasTag(f.name, "_TIMEOUT") && !HasTag(f.name, "_WALKON") && HasTag(f.name, "_PAUSE1") ==>
                  after.specials == before.specials[Pause1 := t])
            && ((!HasTag(f.name, "_TIMEOUT") && !HasTag(f.name, "_WALKON") && !HasTag(f.name, "_PAUSE1")
                 && HasTag(f.name, "_PAUSE2")) ==> after.specials == before.specials[Pause2 := t])
            && (SlotOf(f.name) == None ==> after == before))
  {
    HandleFilesAppendStep(b, fs, f);
    DescribeFile(f);
    PlaceSpecial(Run(Loader(Reset(b), 0), Classify(fs)), Describe(f));
  }

  /** Placing a special entry leaves the categories alone and fills its slot, if any. */
  lemma PlaceSpecial(st: Loader, e: Entry)
    requires e.kind.Special?
    ensures Place(st, e).board.categories == st.board.categories
    ensures e.kind.slot == None ==> Place(st, e) == st
    ensures e.kind.slot.Some? ==>
      Place(st, e).board.specials == st.board.specials[e.kind.slot.value := Some(MakeTrack(e))]
  {
  }

  /** The category a non-special audio file is appended to when `n`
      untagged files came before it: the category of its tag (`TagOf`)
      or, for an untagged file, `sonstiges` when `n` is even and
      `noch_mehr` otherwise. */
  function Target(name: string, n: nat): CategoryKey {
    match TagOf(name)
    case Some(k) => k
    case None => if n % 2 == 0 then Sonstiges else NochMehr
  }

  lemma StepCategoryFile(st: Loader, f: File)
    requires IsAudio(f) && !InSpecial(RelPath(f))
    ensures Step(st, f).board == Append(st.board, Target(f.name, st.toggle), Describe(f))
  {
    TargetIsDestination(f, st.toggle);
    PlaceCategoryEntry(st, Describe(f));
  }

  lemma TargetIsDestination(f: File, n: nat)
    requires IsAudio(f) && !InSpecial(RelPath(f))
    ensures Destination(Describe(f), n) == Some(Target(f.name, n))
  {
    DescribeFile(f);
  }

  lemma PlaceCategoryEntry(st: Loader, e: Entry)
    requires Destination(e, st.toggle).Some?
    ensures Place(st, e).board == Append(st.board, Destination(e, st.toggle).value, e)
  {
  }

  /** Appending to one category leaves the others and every slot alone. */
  lemma AppendShape(b: Board, k: CategoryKey, e: Entry)
    ensures Append(b, k, e).specials == b.specials
    ensures Append(b, k, e).categories ==
      b.categories[k := b.categories[k].(items := b.categories[k].items + [MakeItem(k, e)])]
  {
  }

  /** One loop step on a non-special audio file appends its item to the end
      of exactly one category and changes nothing else on the board. */
  lemma StepAppendsCategoryFile(st: Loader, f: File)
    requires IsAudio(f) && !InSpecial(RelPath(f))
    ensures (var k := Target(f.name, st.toggle);
            var b := st.board;
            && Step(st, f).board.specials == b.specials
            && Step(st, f).board.categories ==
                 b.categories[k := b.categories[k].(items := b.categories[k].items + [MakeItem(k, Describe(f))])])
  {
    StepCategoryFile(st, f);
    AppendShape(st.board, Target(f.name, st.toggle), Describe(f));
  }

  /** A non-special audio file is appended at the end of exactly one
      category; nothing else changes. */
  lemma CategoryFileAppended(b: Board, fs: seq<File>, f: File)
    requires IsAudio(f) && !InSpecial(RelPath(f))
    ensures (var before := HandleFiles(b, fs);
            var after := HandleFiles(b, fs + [f]);
            var k := Target(f.name, |Having(Classify(fs), Untagged)|);
            && after.specials == before.specials
            && after.categories == before.categories[k := before.categories[k].(items :=
                 before.categories[k].items + [MakeItem(k, Describe(f))])])
  {
    HandleFilesAppendStep(b, fs, f);
    StepAppendsCategoryFile(Run(Loader(Reset(b), 0), Classify(fs)), f);
  }

  /** A file tagged `_HIT` or `_ACE` lands in `ass_angriff` whatever its other tags. */
  lemma HitOrAceWins(b: Board, fs: seq<File>, f: File)
    requires IsAudio(f) && !InSpecial(RelPath(f))
    requires HasTag(f.name, "_HIT") || HasTag(f.name, "_ACE")
    ensures HandleFiles(b, fs + [f]).categories[AssAngriff].items ==
            HandleFiles(b, fs).categories[AssAngriff].items + [MakeItem(AssAngriff, Describe(f))]
    ensures forall k :: k != AssAngriff ==> HandleFiles(b, fs + [f]).categories[k] == HandleFiles(b, fs).categories[k]
  {
    TargetPriority(f.name, |Having(Classify(fs), Untagged)|);
    CategoryFileAppended(b, fs, f);
    AppendedOnly(HandleFiles(b, fs), HandleFiles(b, fs + [f]), AssAngriff, MakeItem(AssAngriff, Describe(f)));
  }

  lemma AppendedOnly(before: Board, after: Board, k: CategoryKey, item: Item)
    requires after.categories == before.categories[k := before.categories[k].(items := before.categories[k].items + [item])]
    ensures after.categories[k].items == before.categories[k].items + [item]
    ensures forall j :: j != k ==> after.categories[j] == before.categories[j]
  {
  }

  /** The tag priority of a non-special file: `_HIT`/`_ACE`, then `_BLOCK`,
      `_OPP`, `_FUN`; without any of them the alternation decides. */
  lemma TargetPriority(name: string, n: nat)
    ensures HasTag(name, "_HIT") || HasTag(name, "_ACE") ==> Target(name, n) == AssAngriff
    ensures !HasTag(name, "_HIT") && !HasTag(name, "_ACE") && HasTag(name, "_BLOCK") ==>
              Target(name, n) == Block
    ensures !HasTag(name, "_HIT") && !HasTag(name, "_ACE") && !HasTag(name, "_BLOCK") && HasTag(name, "_OPP") ==>
              Target(name, n) == Gegner
    ensures (!HasTag(name, "_HIT") && !HasTag(name, "_ACE") && !HasTag(name, "_BLOCK") && !HasTag(name, "_OPP")
             && HasTag(name, "_FUN")) ==> Target(name, n) == Spass
    ensures TagOf(name) == None ==> Target(name, n) == (if n % 2 == 0 then Sonstiges else NochMehr)
  {
  }
}

=== FILE: catalog_props.dfy ===
/** What the loop of `handleFiles` produces, stated without the loop: each
    category holds the items of exactly the files classified to it, in file
    order; the two misc categories split the untagged files by position;
    each special slot holds the last file that matched it. */
module CatalogFacts {
  import opened Wrappers
  import opened Catalog

  // ------------------------------------------------------ reference model

  /** The entries of class `c`, in order. */
  function Having(es: seq<Entry>, c: FileClass): seq<Entry> {
    if es == [] then []
    else Having(es[..|es| - 1], c) + (if es[|es| - 1].kind == c then [es[|es| - 1]] else [])
  }

  function Items(k: CategoryKey, es: seq<Entry>): (r: seq<Item>)
    ensures |r| == |es|
    ensures forall i :: 0 <= i < |es| ==> r[i] == MakeItem(k, es[i])
  {
    seq(|es|, i requires 0 <= i < |es| => MakeItem(k, es[i]))
  }

  /** The elements at positions 0, 2, 4, ... */
  function Evens<T>(s: seq<T>): (r: seq<T>)
    ensures |r| == (|s| + 1) / 2
    ensures forall i :: 0 <= i < |r| ==> r[i] == s[2 * i]
  {
    seq((|s| + 1) / 2, i requires 0 <= i < (|s| + 1) / 2 => s[2 * i])
  }

  /** The elements at positions 1, 3, 5, ... */
  function Odds<T>(s: seq<T>): (r: seq<T>)
    ensures |r| == |s| / 2
    ensures forall i :: 0 <= i < |r| ==> r[i] == s[2 * i + 1]
  {
    seq(|s| / 2, i requires 0 <= i < |s| / 2 => s[2 * i + 1])
  }

  /** The items category `k` should hold after the entries `es`. */
  function Expected(es: seq<Entry>, k: CategoryKey): seq<Item> {
    if k == Sonstiges then Items(k, Evens(Having(es, Untagged)))
    else if k == NochMehr then Items(k, Odds(Having(es, Untagged)))
    else Items(k, Having(es, Tagged(k)))
  }

  /** The track slot `k` should hold after the entries `es`: the last match. */
  function ExpectedTrack(es: seq<Entry>, k: SlotKey): Option<Track> {
    var m := Having(es, Special(Some(k)));
    if m == [] then None else Some(MakeTrack(m[|m| - 1]))
  }

  /** The board the reference model predicts after placing `es` onto `b`. */
  function ReferenceBoard(b: Board, es: seq<Entry>): Board {
    Board(
      map k: CategoryKey | true :: b.categories[k].(items := Expected(es, k)),
      map k: SlotKey | true :: ExpectedTrack(es, k))
  }

  /** The loop state the reference model predicts after `es`. */
  function ReferenceLoader(b: Board, es: seq<Entry>): Loader {
    Loader(ReferenceBoard(b, es), |Having(es, Untagged)|)
  }

  /** The category an entry goes to when `n` untagged files came before it. */
  function Destination(e: Entry, n: nat): Option<CategoryKey> {
    match e.kind
    case Tagged(k) => Some(k)
    case Untagged => Some(if n % 2 == 0 then Sonstiges else NochMehr)
    case _ => None
  }

  // ------------------------------------------------------- helper lemmas

  lemma ItemsAppend(k: CategoryKey, s: seq<Entry>, e: Entry)
    ensures Items(k, s + [e]) == Items(k, s) + [MakeItem(k, e)]
  {
  }

  lemma EvensOddsAppend<T>(s: seq<T>, x: T)
    ensures |s| % 2 == 0 ==> Evens(s + [x]) == Evens(s) + [x] && Odds(s + [x]) == Odds(s)
    ensures |s| % 2 == 1 ==> Evens(s + [x]) == Evens(s) && Odds(s + [x]) == Odds(s) + [x]
  {
  }

  lemma HavingLast(es: seq<Entry>, e: Entry, c: FileClass)
    ensures Having(es + [e], c) == Having(es, c) + (if e.kind == c then [e] else [])
  {
    assert (es + [e])[..|es|] == es;
  }

  lemma {:induction false} HavingConcat(a: seq<Entry>, b: seq<Entry>, c: FileClass)
    ensures Having(a + b, c) == Having(a, c) + Having(b, c)
    decreases |b|
  {
    if b == [] {
      assert a + b == a;
    } else {
      var p := b[..|b| - 1];
      var e := b[|b| - 1];
      assert a + b == (a + p) + [e];
      assert b == p + [e];
      HavingLast(a + p, e, c);
      HavingLast(p, e, c);
      HavingConcat(a, p, c);
    }
  }

  /** What one loop step does to category `k`. */
  lemma PlaceEffect(st: Loader, e: Entry, k: CategoryKey)
    ensures Place(st, e).board.categories[k] ==
      st.board.categories[k].(items := st.board.categories[k].items +
        (if Destination(e, st.toggle) == Some(k) then [MakeItem(k, e)] else []))
    ensures Place(st, e).toggle == st.toggle + (if e.kind == Untagged then 1 else 0)
  {
    if e.kind.Tagged? {
      AppendGet(st.board, e.kind.key, k, e);
    } else if e.kind.Untagged? {
      AppendGet(st.board, if st.toggle % 2 == 0 then Sonstiges else NochMehr, k, e);
    }
  }

  lemma AppendGet(b: Board, j: CategoryKey, k: CategoryKey, e: Entry)
    ensures Append(b, j, e).categories[k] ==
      b.categories[k].(items := b.categories[k].items + (if j == k then [MakeItem(k, e)] else []))
  {
  }

  /** What one loop step does to slot `k`. */
  lemma PlaceEffectSlot(st: Loader, e: Entry, k: SlotKey)
    ensures Place(st, e).board.specials[k] ==
      (if e.kind == Special(Some(k)) then Some(MakeTrack(e)) else st.board.specials[k])
  {
  }

  lemma ExpectedAppendMisc(p: seq<Entry>, e: Entry)
    ensures (var n := |Having(p, Untagged)|;
      && Expected(p + [e], Sonstiges) ==
           Expected(p, Sonstiges) + (if e.kind == Untagged && n % 2 == 0 then [MakeItem(Sonstiges, e)] else [])
      && Expected(p + [e], NochMehr) ==
           Expected(p, NochMehr) + (if e.kind == Untagged && n % 2 == 1 then [MakeItem(NochMehr, e)] else []))
  {
    var u := Having(p, Untagged);
    HavingLast(p, e, Untagged);
    if e.kind == Untagged {
      MiscAppendUntagged(u, e);
    } else {
      assert Having(p + [e], Untagged) == u;
    }
  }

  lemma MiscAppendUntagged(u: seq<Entry>, e: Entry)
    ensures Items(Sonstiges, Evens(u + [e])) ==
      Items(Sonstiges, Evens(u)) + (if |u| % 2 == 0 then [MakeItem(Sonstiges, e)] else [])
    ensures Items(NochMehr, Odds(u + [e])) ==
      Items(NochMehr, Odds(u)) + (if |u| % 2 == 1 then [MakeItem(NochMehr, e)] else [])
  {
    EvensOddsAppend(u, e);
    if |u| % 2 == 0 {
      ItemsAppend(Sonstiges, Evens(u), e);
    } else {
      ItemsAppend(NochMehr, Odds(u), e);
    }
  }

  lemma ExpectedAppendTagged(p: seq<Entry>, e: Entry, k: TagKey)
    ensures Expected(p + [e], k) ==
      Expected(p, k) + (if e.kind == Tagged(k) then [MakeItem(k, e)] else [])
  {
    HavingLast(p, e, Tagged(k));
    ItemsAppend(k, Having(p, Tagged(k)), e);
  }

  /** Appending an entry appends its item to the category it is destined for. */
  lemma ExpectedAppend(p: seq<Entry>, e: Entry, k: CategoryKey)
    ensures Expected(p + [e], k) ==
      Expected(p, k) + (if Destination(e, |Having(p, Untagged)|) == Some(k) then [MakeItem(k, e)] else [])
  {
    if k == Sonstiges || k == NochMehr {
      ExpectedAppendMisc(p, e);
    } else {
      ExpectedAppendTagged(p, e, k);
    }
  }

  lemma ExpectedTrackAppend(p: seq<Entry>, e: Entry, k: SlotKey)
    ensures ExpectedTrack(p + [e], k) ==
      (if e.kind == Special(Some(k)) then Some(MakeTrack(e)) else ExpectedTrack(p, k))
  {
    HavingLast(p, e, Special(Some(k)));
  }

  lemma ReferenceStepCategory(b: Board, p: seq<Entry>, e: Entry, k: CategoryKey)
    ensures Place(ReferenceLoader(b, p), e).board.categories[k] == ReferenceBoard(b, p + [e]).categories[k]
  {
    PlaceEffect(ReferenceLoader(b, p), e, k);
    ExpectedAppend(p, e, k);
  }

  lemma ReferenceStepSlot(b: Board, p: seq<Entry>, e: Entry, k: SlotKey)
    ensures Place(ReferenceLoader(b, p), e).board.specials[k] == ReferenceBoard(b, p + [e]).specials[k]
  {
    PlaceEffectSlot(ReferenceLoader(b, p), e, k);
    ExpectedTrackAppend(p, e, k);
  }

  lemma ReferenceStepToggle(b: Board, p: seq<Entry>, e: Entry)
    ensures Place(ReferenceLoader(b, p), e).toggle == |Having(p + [e], Untagged)|
  {
    PlaceEffect(ReferenceLoader(b, p), e, Block);
    HavingLast(p, e, Untagged);
  }

  /** One loop step takes the reference state of `p` to that of `p + [e]`. */
  lemma ReferenceStep(b: Board, p: seq<Entry>, e: Entry)
    ensures Place(ReferenceLoader(b, p), e) == ReferenceLoader(b, p + [e])
  {
    var st' := Place(ReferenceLoader(b, p), e);
    var r := ReferenceLoader(b, p + [e]);
    forall k ensures st'.board.categories[k] == r.board.categories[k] {
      ReferenceStepCategory(b, p, e, k);
    }
    forall k ensures st'.board.specials[k] == r.board.specials[k] {
      ReferenceStepSlot(b, p, e, k);
    }
    ReferenceStepToggle(b, p, e);
    LoaderExt(st', r);
  }

  /** Two loop states agreeing on the counter, every category and every slot are equal. */
  /** Two boards agreeing on every category and every slot are equal. */
  lemma BoardExt(a: Board, b: Board)
    requires forall k :: a.categories[k] == b.categories[k]
    requires forall k :: a.specials[k] == b.specials[k]
    ensures a == b
  {
    assert a.categories == b.categories;
    assert a.specials == b.specials;
  }

  lemma LoaderExt(a: Loader, b: Loader)
    requires a.toggle == b.toggle
    requires forall k :: a.board.categories[k] == b.board.categories[k]
    requires forall k :: a.board.specials[k] == b.board.specials[k]
    ensures a == b
  {
    BoardExt(a.board, b.board);
  }

  /** The loop, started from the reset board, computes the reference state. */
  lemma {:induction false} RunMatchesReference(b: Board, es: seq<Entry>)
    ensures Run(Loader(Reset(b), 0), es) == ReferenceLoader(b, es)
  {
    if es == [] {
      var r := ReferenceLoader(b, es);
      LoaderExt(Loader(Reset(b), 0), r);
    } else {
      var p := es[..|es| - 1];
      var e := es[|es| - 1];
      assert es == p + [e];
      RunMatchesReference(b, p);
      ReferenceStep(b, p, e);
    }
  }
}

=== FILE: media.dfy ===
/** What the catalog and the playback session share: the object URL the
    browser hands out for a selected file (`URL.createObjectURL`), an
    opaque token both sides only pass along. */
module Media {
  datatype Url = Url(id: nat)
}

=== FILE: session.dfy ===
/** The playback session of the soundboard: one shared audio element, an
    optional Web Audio gain node in front of it, the stored volume level,
    the "current audio" flag and at most one pending fade timer.

    `playAudio`, `stopAudio` and `setVolume` are transitions of this record;
    each firing of a fade interval callback is the transition `Tick`.
    Gains and volumes are `real` numbers standing in for JS doubles. */
module Playback {
  import opened Wrappers
  import opened Media

  /** The pending fade timer and the decrement its callback subtracts per tick. */
  datatype Fade =
    | GainFade(step: real)    // fades `gainNode.gain.value`
    | VolumeFade(step: real)  // fades `el.volume`

  /** What `parseFloat` made of the value of the volume control. */
  datatype Parsed = NotANumber | Finite(x: real) | PlusInfinity | MinusInfinity

  datatype Session = Session(
    audioApi: bool,         // `AudioContext` exists, so `ensureAudioGraph` builds a gain node
    isIos: bool,            // `IS_IOS`
    gain: Option<real>,     // `gainNode.gain.value` once the gain node exists
    elVolume: real,         // `el.volume`
    paused: bool,           // the element is paused
    src: Option<Url>,       // `el.src`
    current: bool,          // `currentAudio !== null`
    volumeLevel: real,      // `volumeLevel`
    fade: Option<Fade>)     // `fadeIntervalId` and the step its callback uses

  /** The number of ticks a fade is scheduled to take. */
  const FadeSteps: real := 30.0

  /** The state before anything was played: no gain node yet, the element
      at its default volume 1, the stored level 1. */
  function Initial(audioApi: bool, isIos: bool): (s: Session)
    ensures Valid(s) && !s.current && s.fade == None
  {
    Session(audioApi, isIos, None, 1.0, true, None, false, 1.0, None)
  }

  /** What every reachable session satisfies. */
  predicate Valid(s: Session) {
    && 0.0 <= s.volumeLevel <= 1.0
    && 0.0 <= s.elVolume <= 1.0
    && (s.gain.Some? ==> s.audioApi && 0.0 <= s.gain.value <= 1.0)
    // with Web Audio the element volume is never written and stays at 1
    && (s.audioApi ==> s.elVolume == 1.0)
    // playing always builds the gain node when Web Audio exists
    && (s.audioApi && s.current ==> s.gain.Some?)
    && (s.fade.Some? ==> s.current && s.fade.value.step > 0.0)
    && (s.fade.Some? && s.fade.value.GainFade? ==> s.gain.Some?)
    && (s.fade.Some? && s.fade.value.VolumeFade? ==> s.gain.None? && !s.isIos)
  }

  /** The level that reaches the speakers: element volume times gain. */
  function Output(s: Session): real {
    s.elVolume * s.gain.GetOr(1.0)
  }

  /** Idle: nothing current, the element paused, no timer pending. */
  predicate Idle(s: Session) {
    !s.current && s.paused && s.fade == None
  }

  /** The part of `ensureAudioGraph` the session sees: the first call with
      Web Audio available creates the gain node at the stored level. */
  function EnsureGraph(s: Session): (r: Session)
    ensures s.audioApi ==> r.gain.Some?
    ensures s.gain.Some? || !s.audioApi ==> r == s
    ensures s.audioApi && s.gain.None? ==> r == s.(gain := Some(s.volumeLevel))
    ensures Valid(s) ==> Valid(r)
  {
    if s.audioApi && s.gain.None? then s.(gain := Some(s.volumeLevel)) else s
  }

  /** Writes `volumeLevel` to whichever volume path exists. */
  function ApplyLevel(s: Session): (r: Session)
    ensures r.gain.Some? == s.gain.Some?
    ensures r.(gain := s.gain, elVolume := s.elVolume) == s
    ensures Valid(s) && (s.audioApi ==> s.gain.Some?) ==> Valid(r) && Output(r) == s.volumeLevel
  {
    if s.gain.Some? then s.(gain := Some(s.volumeLevel)) else s.(elVolume := s.volumeLevel)
  }

  /** `el.pause(); el.currentTime = 0; currentAudio = null`, with the timer cleared. */
  function Halt(s: Session): (r: Session)
    ensures Idle(r)
    ensures r.(paused := s.paused, current := s.current, fade := s.fade) == s
    ensures Valid(s) ==> Valid(r)
  {
    s.(paused := true, current := false, fade := None)
  }

  // ---------------------------------------------------------------- playAudio

  /** `playAudio(url)`: cancels a pending fade, builds the audio graph,
      loads `url`, applies the stored level and starts playback;
      `allowed` is whether the browser lets `el.play()` start (a refusal is
      only logged, leaving the element paused). */
  function Play(s: Session, url: Url, allowed: bool): (r: Session)
    ensures r.fade == None && r.current && r.src == Some(url) && r.paused == !allowed
    ensures r.volumeLevel == s.volumeLevel && r.audioApi == s.audioApi && r.isIos == s.isIos
    ensures r.audioApi ==> r.gain.Some?
    ensures Valid(s) ==> Valid(r) && Output(r) == s.volumeLevel
  {
    var s1 := EnsureGraph(s.(fade := None));
    var s2 := ApplyLevel(s1.(paused := true, src := Some(url)));
    s2.(current := true, paused := !allowed)
  }

  // ---------------------------------------------------------------- stopAudio

  /** `stopAudio(forceImmediate)`: with nothing current nothing happens;
      otherwise any pending fade is cancelled and then, in this order of
      preference, the gain is faded, the element volume is faded (not on
      iOS), or playback halts at once. */
  function Stop(s: Session, forceImmediate: bool): (r: Session)
    ensures !s.current ==> r == s
    ensures s.current && (forceImmediate || (s.gain.None? && s.isIos)) ==> Idle(r) && r == Halt(s)
    ensures s.current && !forceImmediate && s.gain.Some? ==>
              r == s.(fade := r.fade) && r.fade.Some? && r.fade.value.GainFade?
    ensures s.current && !forceImmediate && s.gain.None? && !s.isIos ==>
              r == s.(fade := r.fade) && r.fade.Some? && r.fade.value.VolumeFade?
    ensures Valid(s) ==> Valid(r)
  {
    if !s.current then s
    else
      var s1 := s.(fade := None);
      if !forceImmediate && s1.gain.Some? then
        var g := s1.gain.value;
        // `gainNode.gain.value || volumeLevel || 1`
        var startGain := if g != 0.0 then g else if s.volumeLevel != 0.0 then s.volumeLevel else 1.0;
        s1.(fade := Some(GainFade(startGain / FadeSteps)))
      else if !forceImmediate && !s.isIos then
        // `el.volume > 0 ? el.volume : volumeLevel || 1`
        var initial := if s.elVolume > 0.0 then s.elVolume else if s.volumeLevel != 0.0 then s.volumeLevel else 1.0;
        s1.(fade := Some(VolumeFade(initial / FadeSteps)))
      else
        Halt(s1)
  }

  /** One firing of the pending fade's interval callback; without a pending
      fade, time passing changes nothing. */
  function Tick(s: Session): (r: Session)
    ensures s.fade == None ==> r == s
    ensures Valid(s) ==> Valid(r)
    ensures Valid(s) && r.current ==> Output(r) <= Output(s)
    ensures Valid(s) && r.current && s.fade.Some? ==> Output(r) < Output(s)
  {
    match s.fade
    case None => s
    case Some(GainFade(step)) =>
      (match s.gain
       case None => s
       case Some(g) =>
         var next := g - step;
         if next > 0.0 then s.(gain := Some(next))
         else Halt(s).(gain := Some(s.volumeLevel)))
    case Some(VolumeFade(step)) =>
      if s.elVolume > step then s.(elVolume := s.elVolume - step)
      else Halt(s)
  }

  /** `n` firings of the interval callback with nothing else happening. */
  function Ticks(s: Session, n: nat): Session
    decreases n
  {
    if n == 0 then s else Ticks(Tick(s), n - 1)
  }

  // ---------------------------------------------------------------- setVolume

  /** `Math.min(1, Math.max(0, parseFloat(value) || 0))`. */
  function Clamp(p: Parsed): (v: real)
    ensures 0.0 <= v <= 1.0
    ensures p == NotANumber || p == MinusInfinity ==> v == 0.0
    ensures p == PlusInfinity ==> v == 1.0
    ensures p.Finite? ==> (v == p.x <==> 0.0 <= p.x <= 1.0)
    ensures p.Finite? && p.x < 0.0 ==> v == 0.0
    ensures p.Finite? && p.x > 1.0 ==> v == 1.0
  {
    match p
    case NotANumber => 0.0
    case MinusInfinity => 0.0
    case PlusInfinity => 1.0
    case Finite(x) => if x < 0.0 then 0.0 else if x > 1.0 then 1.0 else x
  }

  /** `setVolume(value)`: stores the clamped level and applies it to the
      live output; a pending fade keeps running. */
  function SetVolume(s: Session, p: Parsed): (r: Session)
    ensures r.volumeLevel == Clamp(p)
    ensures r.fade == s.fade && r.current == s.current && r.paused == s.paused && r.src == s.src
    ensures r.audioApi ==> r.gain.Some?
    ensures Valid(s) ==> Valid(r) && Output(r) == Clamp(p)
  {
    ApplyLevel(EnsureGraph(s.(volumeLevel := Clamp(p))))
  }

  // ---------------------------------------------------------------- sessions

  /** What can happen to the session: a button plays a track, the stop
      button (or `forceImmediate`) stops it, a fade timer fires, or the
      volume control changes. */
  datatype Action =
    | PlayAction(url: Url, allowed: bool)
    | StopAction(force: bool)
    | TickAction
    | SetVolumeAction(p: Parsed)

  function Perform(s: Session, a: Action): (r: Session)
    ensures Valid(s) ==> Valid(r)
    ensures a.TickAction? && s.fade == None ==> r == s
  {
    match a
    case PlayAction(url, allowed) => Play(s, url, allowed)
    case StopAction(force) => Stop(s, force)
    case TickAction => Tick(s)
    case SetVolumeAction(p) => SetVolume(s, p)
  }

  /** The session after the actions in order. */
  function Replay(s: Session, acts: seq<Action>): (r: Session)
    ensures Valid(s) ==> Valid(r)
    ensures acts != [] && acts[|acts| - 1].PlayAction? ==>
              r.current && r.fade == None && r.src == Some(acts[|acts| - 1].url)
    decreases |acts|
  {
    if acts == [] then s
    else Perform(Replay(s, acts[..|acts| - 1]), acts[|acts| - 1])
  }

  /** Every session the page can reach from its initial state is valid:
      levels within [0, 1], at most one fade pending and only on a current
      track, a gain fade only with a gain node, an element fade only
      without one and off iOS. */
  lemma {:induction false} ReachableIsValid(audioApi: bool, isIos: bool, acts: seq<Action>)
    ensures Valid(Replay(Initial(audioApi, isIos), acts))
    decreases |acts|
  {
    if acts != [] {
      ReachableIsValid(audioApi, isIos, acts[..|acts| - 1]);
    }
  }

  // ---------------------------------------------------------------- lemmas

  /** Once nothing is pending, further ticks change nothing. */
  lemma {:induction false} TicksWithoutFade(s: Session, n: nat)
    requires s.fade == None
    ensures Ticks(s, n) == s
    decreases n
  {
    if n > 0 {
      TicksWithoutFade(Tick(s), n - 1);
    }
  }

  lemma {:induction false} TicksKeepValid(s: Session, n: nat)
    requires Valid(s)
    ensures Valid(Ticks(s, n))
    decreases n
  {
    if n > 0 {
      TicksKeepValid(Tick(s), n - 1);
    }
  }

  /** A new play leaves no pending timer behind: whatever fade the previous
      track had, later ticks do not touch the new one. */
  lemma PlayCancelsFade(s: Session, url: Url, allowed: bool, n: nat)
    ensures Ticks(Play(s, url, allowed), n) == Play(s, url, allowed)
  {
    TicksWithoutFade(Play(s, url, allowed), n);
  }

  /** Two plays in a row leave one current track, the second, and no timer. */
  lemma PlayTwice(s: Session, u1: Url, u2: Url, a1: bool, a2: bool)
    requires Valid(s)
    ensures (var r := Play(Play(s, u1, a1), u2, a2);
            r.current && r.src == Some(u2) && r.fade == None && Output(r) == s.volumeLevel)
  {
  }

  /** A forced stop, or a stop on iOS without a gain node, is idle at once
      and stays idle. */
  lemma ImmediateStopIsIdle(s: Session, force: bool, n: nat)
    requires s.current
    requires force || (s.gain.None? && s.isIos)
    ensures Idle(Stop(s, force)) && Ticks(Stop(s, force), n) == Stop(s, force)
  {
    TicksWithoutFade(Stop(s, force), n);
  }

  /** The gain-fade callback never writes a non-positive gain while the
      fade is running, and lowers the output on every tick that keeps it
      running. */
  lemma GainTickLowers(s: Session)
    requires Valid(s) && s.fade.Some? && s.fade.value.GainFade?
    ensures Tick(s).current ==> Tick(s) == s.(gain := Some(s.gain.value - s.fade.value.step))
    ensures Tick(s).current ==> 0.0 < Tick(s).gain.value < s.gain.value
    ensures Tick(s).current ==> Output(Tick(s)) < Output(s)
    ensures !Tick(s).current ==> Idle(Tick(s)) && Tick(s).gain == Some(s.volumeLevel)
  {
  }

  /** `n` fade steps of size `step`, added up one by one. */
  function Steps(n: nat, step: real): real {
    if n == 0 then 0.0 else Steps(n - 1, step) + step
  }

  lemma {:induction false} StepsIsProduct(n: nat, step: real)
    ensures Steps(n, step) == (n as real) * step
  {
    if n > 0 {
      StepsIsProduct(n - 1, step);
      assert (n as real) * step == ((n - 1) as real) * step + step;
    }
  }

  lemma {:induction false} StepsPositive(n: nat, step: real)
    requires n >= 1 && step > 0.0
    ensures Steps(n, step) > 0.0
  {
    if n > 1 {
      StepsPositive(n - 1, step);
    }
  }

  /** A gain fade with `m` steps of gain left: for `k < m`, `k` ticks take
      exactly `k` steps off and keep the fade running. */
  lemma {:induction false} GainAfterTicks(s: Session, m: nat, k: nat)
    requires Valid(s) && s.fade.Some? && s.fade.value.GainFade?
    requires s.gain == Some(Steps(m, s.fade.value.step))
    requires k < m
    ensures Ticks(s, k) == s.(gain := Some(Steps(m - k, s.fade.value.step)))
    decreases k
  {
    var step := s.fade.value.step;
    if k > 0 {
      StepsPositive(m - 1, step);
      var t := Tick(s);
      assert t == s.(gain := Some(Steps(m - 1, step)));
      GainAfterTicks(t, m - 1, k - 1);
      assert m - 1 - (k - 1) == m - k;
    }
  }

  /** A running gain fade finishes within `n` ticks once `n` steps cover
      the current gain: the track is halted, no timer is left and the gain
      is back at the stored level for the next play. */
  lemma {:induction false} GainFadeEnds(s: Session, n: nat)
    requires Valid(s) && s.fade.Some? && s.fade.value.GainFade?
    requires n >= 1 && s.gain.value <= Steps(n, s.fade.value.step)
    ensures Idle(Ticks(s, n)) && Ticks(s, n).gain == Some(s.volumeLevel)
    decreases n
  {
    var t := Tick(s);
    if t.current {
      GainTickLowers(s);
      assert t.gain.value == s.gain.value - s.fade.value.step;
      GainFadeEnds(t, n - 1);
    } else {
      TicksWithoutFade(t, n - 1);
    }
  }

  /** With Web Audio, `stopAudio()` on a playing track with gain `g > 0`
      schedules 30 steps of `g / 30`: after `k < 30` ticks `30 - k` of
      them remain and the track is still current. */
  lemma GainFadeRunsThirtyTicks(s: Session, k: nat)
    requires Valid(s) && s.current && s.gain.Some? && s.gain.value > 0.0
    requires k < 30
    ensures Ticks(Stop(s, false), k).current
    ensures Ticks(Stop(s, false), k).gain == Some(Steps(30 - k, s.gain.value / 30.0))
  {
    var f := Stop(s, false);
    var step := s.gain.value / 30.0;
    assert f == s.(fade := Some(GainFade(step)));
    StepsIsProduct(30, step);
    assert Steps(30, step) == s.gain.value;
    assert f.gain == Some(Steps(30, f.fade.value.step));
    GainAfterTicks(f, 30, k);
  }

  /** ... and the 30th tick halts it, clears the timer and resets the gain
      to the stored level for the next play. */
  lemma GainFadeEndsAtThirtyTicks(s: Session)
    requires Valid(s) && s.current && s.gain.Some? && s.gain.value > 0.0
    ensures Idle(Ticks(Stop(s, false), 30)) && Ticks(Stop(s, false), 30).gain == Some(s.volumeLevel)
  {
    var f := Stop(s, false);
    var step := s.gain.value / 30.0;
    assert f == s.(fade := Some(GainFade(step)));
    StepsIsProduct(30, step);
    GainFadeEnds(f, 30);
  }

  /** Whatever the start gain, including the zero that makes
      `gainNode.gain.value || volumeLevel || 1` fall back to the stored
      level or to 1, the gain fade `stopAudio()` schedules has ended
      after 30 ticks. */
  lemma GainFadeWithinThirtyTicks(s: Session)
    requires Valid(s) && s.current && s.gain.Some?
    ensures Idle(Ticks(Stop(s, false), 30)) && Ticks(Stop(s, false), 30).gain == Some(s.volumeLevel)
  {
    var f := Stop(s, false);
    StepsIsProduct(30, f.fade.value.step);
    GainFadeEnds(f, 30);
  }

  /** With the gain at zero the fallback step is positive, so the first
      tick already finds nothing left and halts. */
  lemma ZeroGainFadeEndsAtOnce(s: Session)
    requires Valid(s) && s.current && s.gain == Some(0.0)
    ensures Idle(Tick(Stop(s, false))) && Tick(Stop(s, false)).gain == Some(s.volumeLevel)
  {
  }

  /** The element-fade callback lowers the volume on every tick that keeps
      it running and halts, leaving the volume where it stood, once one
      step no longer fits. */
  lemma VolumeTickLowers(s: Session)
    requires Valid(s) && s.fade.Some? && s.fade.value.VolumeFade?
    ensures Tick(s).current ==> Tick(s) == s.(elVolume := s.elVolume - s.fade.value.step)
    ensures Tick(s).current ==> 0.0 < Tick(s).elVolume < s.elVolume
    ensures !Tick(s).current ==> Idle(Tick(s)) && Tick(s).elVolume == s.elVolume
  {
  }

  /** Without a gain node (and off iOS) `stopAudio()` fades the element
      volume instead; a running element fade finishes within `n` ticks
      once `n` steps cover the current volume. The element volume is left
      where the fade stopped; the next `playAudio` restores it. */
  lemma {:induction false} VolumeFadeEnds(s: Session, n: nat)
    requires Valid(s) && s.fade.Some? && s.fade.value.VolumeFade?
    requires n >= 1 && s.elVolume <= Steps(n, s.fade.value.step)
    ensures Idle(Ticks(s, n))
    ensures Ticks(s, n).elVolume <= s.elVolume
    decreases n
  {
    var t := Tick(s);
    if t.current {
      assert t.elVolume == s.elVolume - s.fade.value.step;
      VolumeFadeEnds(t, n - 1);
    } else {
      TicksWithoutFade(t, n - 1);
    }
  }

  /** The element fade scheduled by `stopAudio()` covers the starting
      volume in 30 steps, so it ends within 30 ticks. */
  lemma VolumeFadeWithinThirtyTicks(s: Session)
    requires Valid(s) && s.current && s.gain.None? && !s.isIos
    ensures Idle(Ticks(Stop(s, false), 30))
  {
    var f := Stop(s, false);
    StepsIsProduct(30, f.fade.value.step);
    VolumeFadeEnds(f, 30);
  }

  /** Without a gain node, an element fade leaves `el.volume` at its last
      faded value; `setVolume` writes the stored level back to it, as the
      next `playAudio` does. */
  lemma SetVolumeRestoresElementVolume(s: Session, p: Parsed)
    requires Valid(s) && !s.audioApi
    ensures SetVolume(s, p).elVolume == Clamp(p)
    ensures Output(SetVolume(s, p)) == Clamp(p)
  {
  }

  /** Setting the same volume twice is the same as setting it once. */
  lemma SetVolumeIdempotent(s: Session, p: Parsed)
    ensures SetVolume(SetVolume(s, p), p) == SetVolume(s, p)
  {
  }

  /** The stored level is what the next play applies. */
  lemma SetVolumeThenPlay(s: Session, p: Parsed, url: Url, allowed: bool)
    requires Valid(s)
    ensures Output(Play(SetVolume(s, p), url, allowed)) == Clamp(p)
  {
  }

  /** `setVolume` during a gain fade writes the new level straight to the
      gain node while the timer keeps running: one tick into the fade, a
      higher volume lifts the gain above where it stood when the fade
      began, and the fade goes on from there with its old step. */
  lemma SetVolumeMidFadeRaisesGain(s: Session, v: real)
    requires Valid(s) && s.current && s.gain.Some? && 0.0 < s.gain.value < v <= 1.0
    ensures (var f := Stop(s, false);
            var r := SetVolume(Tick(f), Finite(v));
            && r.current && r.fade == f.fade
            && r.gain == Some(v) && r.gain.value > s.gain.value)
  {
    var f := Stop(s, false);
    assert f.fade == Some(GainFade(s.gain.value / 30.0));
    assert Tick(f).current;
  }
}

=== FILE: text.dfy ===
/** String operations the soundboard script performs on file names and paths:
    ASCII case folding, case-insensitive search for a tag, removal of the
    first occurrence of a tag (`String.prototype.replace` with a
    non-global `/…/i` regular expression), detection and removal of a
    trailing audio extension, and `String.prototype.trim`.

    The matching functions are written recursively; the lemmas after each
    of them state what they compute with quantifiers. */
module Text {
  import opened Wrappers

  /** Upper-cases ASCII letters and leaves every other character alone. */
  function Upper(c: char): char {
    if 'a' <= c <= 'z' then (c as int - 32) as char else c
  }

  /** True when the pattern `t` (written in upper case) occurs in `s` at
      index `i`, comparing letters without regard to case. */
  predicate MatchAt(s: string, i: nat, t: string)
    decreases |t|
  {
    if t == [] then i <= |s|
    else i < |s| && Upper(s[i]) == t[0] && MatchAt(s, i + 1, t[1..])
  }

  lemma {:induction false} MatchAtMeans(s: string, i: nat, t: string)
    ensures MatchAt(s, i, t) <==> i + |t| <= |s| && forall j :: 0 <= j < |t| ==> Upper(s[i + j]) == t[j]
    decreases |t|
  {
    if t != [] {
      MatchAtMeans(s, i + 1, t[1..]);
      if i < |s| && Upper(s[i]) == t[0] && MatchAt(s, i + 1, t[1..]) {
        forall j | 0 <= j < |t| ensures Upper(s[i + j]) == t[j] {
          if j > 0 {
            assert t[1..][j - 1] == t[j];
          }
        }
      }
      if i + |t| <= |s| && forall j :: 0 <= j < |t| ==> Upper(s[i + j]) == t[j] {
        assert Upper(s[i + 0]) == t[0];
        forall j | 0 <= j < |t| - 1 ensures Upper(s[i + 1 + j]) == t[1..][j] {
          assert Upper(s[i + (j + 1)]) == t[j + 1];
        }
      }
    }
  }

  /** The first index at or after `from` where `t` occurs in `s`,
      case-insensitively, or None. */
  function FindFrom(s: string, t: string, from: nat): Option<nat>
    decreases |s| - from
  {
    if from + |t| > |s| then None
    else if MatchAt(s, from, t) then Some(from)
    else FindFrom(s, t, from + 1)
  }

  lemma {:induction false} MatchAtNeedsRoom(s: string, i: nat, t: string)
    requires MatchAt(s, i, t)
    ensures i + |t| <= |s|
    decreases |t|
  {
    if t != [] {
      MatchAtNeedsRoom(s, i + 1, t[1..]);
    }
  }

  lemma {:induction false} FindFromFindsFirst(s: string, t: string, from: nat)
    ensures var r := FindFrom(s, t, from);
            && (r.Some? ==> from <= r.value && MatchAt(s, r.value, t))
            && (r.Some? ==> forall j: nat :: from <= j < r.value ==> !MatchAt(s, j, t))
            && (r.None? ==> forall j: nat :: from <= j ==> !MatchAt(s, j, t))
    decreases |s| - from
  {
    if from + |t| > |s| {
      forall j: nat | from <= j ensures !MatchAt(s, j, t) {
        if MatchAt(s, j, t) {
          MatchAtNeedsRoom(s, j, t);
        }
      }
    } else if !MatchAt(s, from, t) {
      FindFromFindsFirst(s, t, from + 1);
    }
  }

  /** The first case-insensitive occurrence of `t` in `s`. */
  function Find(s: string, t: string): Option<nat> {
    FindFrom(s, t, 0)
  }

  /** `Find` returns the first occurrence, and None exactly when there is none. */
  lemma FindFindsFirst(s: string, t: string)
    ensures Find(s, t).Some? ==> MatchAt(s, Find(s, t).value, t)
    ensures Find(s, t).Some? ==> forall j: nat :: j < Find(s, t).value ==> !MatchAt(s, j, t)
    ensures Find(s, t).None? ==> forall j: nat :: !MatchAt(s, j, t)
    ensures (forall j: nat :: !MatchAt(s, j, t)) ==> Find(s, t).None?
  {
    FindFromFindsFirst(s, t, 0);
  }

  /** `s.toUpperCase().includes(t)` for an upper-case pattern `t`. */
  predicate HasTag(s: string, t: string) {
    Find(s, t).Some?
  }

  lemma HasTagMeansOccurs(s: string, t: string)
    ensures HasTag(s, t) ==> exists j: nat :: MatchAt(s, j, t)
    ensures (exists j: nat :: MatchAt(s, j, t)) ==> HasTag(s, t)
  {
    FindFindsFirst(s, t);
  }

  /** `s.replace(/t/i, "")`: drops the first case-insensitive occurrence of
      `t`, leaving `s` unchanged when there is none. */
  function RemoveFirst(s: string, t: string): (r: string)
    ensures |r| == |s| || |r| == |s| - |t|
    ensures (forall j: nat :: !MatchAt(s, j, t)) ==> r == s
  {
    FindFindsFirst(s, t);
    match Find(s, t)
    case None => s
    case Some(i) =>
      MatchAtNeedsRoom(s, i, t);
      s[..i] + s[i + |t|..]
  }

  /** `s` without the `n` characters that start at index `i`. */
  function CutOut(s: string, i: nat, n: nat): (r: string)
    requires i + n <= |s|
    ensures |r| == |s| - n
  {
    s[..i] + s[i + n..]
  }

  /** Without an occurrence of the tag, `RemoveFirst` changes nothing. */
  lemma RemoveFirstWithoutMatch(s: string, t: string)
    requires forall j: nat :: !MatchAt(s, j, t)
    ensures RemoveFirst(s, t) == s
  {
    FindFindsFirst(s, t);
  }

  /** `RemoveFirst` cuts out exactly the first occurrence of the tag and
      keeps everything before and after it. */
  lemma RemoveFirstCutsFirstOccurrence(s: string, t: string, i: nat)
    requires MatchAt(s, i, t)
    requires forall j: nat :: j < i ==> !MatchAt(s, j, t)
    ensures i + |t| <= |s|
    ensures |RemoveFirst(s, t)| == |s| - |t|
    ensures RemoveFirst(s, t)[..i] == s[..i]
    ensures RemoveFirst(s, t)[i..] == s[i + |t|..]
  {
    MatchAtNeedsRoom(s, i, t);
    FindIsFirstMatch(s, t, i);
    var r := s[..i] + s[i + |t|..];
    assert RemoveFirst(s, t) == r;
    assert r[..i] == s[..i];
    assert r[i..] == s[i + |t|..];
  }

  /** The first match is the one `Find` reports. */
  lemma FindIsFirstMatch(s: string, t: string, i: nat)
    requires MatchAt(s, i, t)
    requires forall j: nat :: j < i ==> !MatchAt(s, j, t)
    ensures Find(s, t) == Some(i)
  {
    FindFindsFirst(s, t);
    var k := Find(s, t).value;
    assert !(k < i);
    assert !(i < k);
  }

  /** ECMAScript WhiteSpace and LineTerminator code points: the characters
      that `String.prototype.trim` strips. */
  predicate IsSpace(c: char) {
    || c == '\t' || c == '\n' || c == '\U{000B}' || c == '\U{000C}' || c == '\r'
    || c == ' ' || c == '\U{00A0}' || c == '\U{1680}'
    || ('\U{2000}' <= c <= '\U{200A}')
    || c == '\U{2028}' || c == '\U{2029}' || c == '\U{202F}' || c == '\U{205F}'
    || c == '\U{3000}' || c == '\U{FEFF}'
  }

  predicate AllSpace(s: string) {
    forall i :: 0 <= i < |s| ==> IsSpace(s[i])
  }

  /** Neither the first nor the last character is white space. */
  predicate Trimmed(s: string) {
    |s| > 0 ==> !IsSpace(s[0]) && !IsSpace(s[|s| - 1])
  }

  /** Removes the longest all-white-space prefix. */
  function TrimStart(s: string): (r: string)
    ensures |r| <= |s| && r == s[|s| - |r|..]
    ensures AllSpace(s[..|s| - |r|])
    ensures |r| > 0 ==> !IsSpace(r[0])
  {
    if |s| > 0 && IsSpace(s[0]) then TrimStart(s[1..]) else s
  }

  /** Removes the longest all-white-space suffix. */
  function TrimEnd(s: string): (r: string)
    ensures |r| <= |s| && r == s[..|r|]
    ensures AllSpace(s[|r|..])
    ensures |r| > 0 ==> !IsSpace(r[|r| - 1])
  {
    if |s| > 0 && IsSpace(s[|s| - 1]) then TrimEnd(s[..|s| - 1]) else s
  }

  /** `String.prototype.trim`. */
  function Trim(s: string): (r: string)
    ensures Trimmed(r)
    ensures |r| <= |s|
    ensures r == [] <==> AllSpace(s)
    ensures Trimmed(s) ==> r == s
  {
    var a := TrimStart(s);
    var r := TrimEnd(a);
    if r == [] then
      assert AllSpace(s) by {
        assert s == s[..|s| - |a|] + a;
      }
      r
    else
      assert !IsSpace(r[0]);
      r
  }

  /** `trim()` cuts a white-space prefix and a white-space suffix off its
      input and keeps what lies between: the result is `s[i..j]`. */
  lemma TrimIsSlice(s: string) returns (i: nat, j: nat)
    ensures i <= j <= |s|
    ensures Trim(s) == s[i..j]
    ensures AllSpace(s[..i]) && AllSpace(s[j..])
  {
    var a := TrimStart(s);
    i := |s| - |a|;
    j := i + |Trim(s)|;
    assert a == s[i..];
    assert Trim(s) == a[..|Trim(s)|];
    assert s[j..] == a[|Trim(s)|..];
  }

  /** `s` with every ASCII letter in upper case. */
  function UpperAll(s: string): (r: string)
    ensures |r| == |s|
    ensures forall i :: 0 <= i < |s| ==> r[i] == Upper(s[i])
  {
    seq(|s|, i requires 0 <= i < |s| => Upper(s[i]))
  }

  /** The extensions `/\.(mp3|flac|wav|ogg)$/i` accepts, compared case-insensitively. */
  predicate IsAudioExtension(x: string) {
    UpperAll(x) in {".MP3", ".FLAC", ".WAV", ".OGG"}
  }

  /** `/\.(mp3|flac|wav|ogg)$/i.test(s)`. */
  predicate HasAudioExtension(s: string) {
    || (|s| >= 4 && IsAudioExtension(s[|s| - 4..]))
    || (|s| >= 5 && IsAudioExtension(s[|s| - 5..]))
  }

  /** The name ends in one of the four extensions, the dot included, in
      any letter case: the two suffix lengths checked are the only ones
      an extension can have. */
  lemma HasAudioExtensionMeans(s: string)
    ensures HasAudioExtension(s) ==> exists k :: 0 <= k <= |s| && IsAudioExtension(s[k..])
    ensures (exists k :: 0 <= k <= |s| && IsAudioExtension(s[k..])) ==> HasAudioExtension(s)
  {
    forall k | 0 <= k <= |s| && IsAudioExtension(s[k..]) ensures k == |s| - 4 || k == |s| - 5 {
      assert |UpperAll(s[k..])| == |s| - k;
    }
  }

  /** Extension matching ignores letter case, as the `/i` flag does. */
  lemma HasAudioExtensionIgnoresCase(s: string, x: string)
    requires |s| == |x|
    requires forall i :: 0 <= i < |s| ==> Upper(s[i]) == Upper(x[i])
    ensures HasAudioExtension(s) <==> HasAudioExtension(x)
  {
    assert UpperAll(s) == UpperAll(x);
    if |s| >= 4 {
      UpperAllSuffix(s, |s| - 4);
      UpperAllSuffix(x, |x| - 4);
    }
    if |s| >= 5 {
      UpperAllSuffix(s, |s| - 5);
      UpperAllSuffix(x, |x| - 5);
    }
  }

  lemma UpperAllSuffix(s: string, k: nat)
    requires k <= |s|
    ensures UpperAll(s[k..]) == UpperAll(s)[k..]
  {
  }

  /** `s.replace(/\.(mp3|flac|wav|ogg)$/i, "")`: drops exactly one trailing
      audio extension, if there is one. */
  function StripAudioExtension(s: string): (r: string)
    ensures !HasAudioExtension(s) ==> r == s
    ensures HasAudioExtension(s) ==> |r| < |s| && r == s[..|r|] && IsAudioExtension(s[|r|..])
  {
    if |s| >= 4 && IsAudioExtension(s[|s| - 4..]) then
      assert s[|s| - 4..] == s[|s[..|s| - 4]|..];
      s[..|s| - 4]
    else if |s| >= 5 && IsAudioExtension(s[|s| - 5..]) then
      assert s[|s| - 5..] == s[|s[..|s| - 5]|..];
      s[..|s| - 5]
    else s
  }

  /** `s.startsWith(p)`, case-sensitive. */
  predicate StartsWith(s: string, p: string)
    decreases |p|
  {
    p == [] || (|s| > 0 && s[0] == p[0] && StartsWith(s[1..], p[1..]))
  }

  /** `StartsWith(s, p)` holds exactly when `p` is a prefix of `s`. */
  lemma {:induction false} StartsWithMeans(s: string, p: string)
    ensures StartsWith(s, p) <==> |p| <= |s| && s[..|p|] == p
    decreases |p|
  {
    if p != [] && |s| > 0 {
      StartsWithMeans(s[1..], p[1..]);
      if |p| <= |s| && s[..|p|] == p {
        assert s[1..][..|p| - 1] == p[1..];
      }
      if s[0] == p[0] && |p| - 1 <= |s| - 1 && s[1..][..|p| - 1] == p[1..] {
        assert s[..|p|] == [s[0]] + s[1..][..|p| - 1];
      }
    }
  }
}

=== FILE: wrappers.dfy ===
/** The optional-value datatype used for nullable references of the soundboard
    (an empty special slot, a cleared fade timer, a search that finds nothing). */
module Wrappers {

  datatype Option<+T> = None | Some(value: T) {

    /** Returns the value held in Some, or `default` for None. */
    function GetOr(default: T): T {
      match this
      case Some(v) => v
      case None => default
    }
  }
}
